=== FILE: README.md ===
# Market-direction estimator: heuristic scorer, time decay and indicator windows

A Dafny model of two pure arithmetic pieces of a short-window "will the
price finish up?" estimator:

- **The directional heuristic scorer** (`scoreDirection`). Both sides start
  at a baseline score of 1. Each rule in a decision table adds a fixed
  integer bonus to one side, and each rule is gated on its inputs being
  present. The rules are: the tiered price-to-strike distance, price versus
  VWAP, VWAP slope, RSI momentum, MACD histogram expansion and MACD line,
  the Heiken-Ashi streak, and the failed VWAP reclaim. The raw probability
  of "up" is `up / (up + down)`.
- **The time-decay shrink** (`applyTimeAwareness`). It pulls a heuristic
  probability toward one half. The pull is weighted by the clamped fraction
  of the market window that is still left.
- **The indicator windows.** These are Wilder's RSI (`computeRsi`: a simple
  average seed over the first `period` changes, then Wilder smoothing), the
  trailing simple moving average (`sma`) and the endpoint slope of a
  trailing window (`slopeLast`).

Files:

- `utils.dfy` (module `Utils`): the `Option` type for nullable numbers,
  `Clamp`, and small real-arithmetic lemmas.
- `probability.dfy` (module `Probability`): the snapshot, one function per
  scoring rule, `ScoreDirection`, `ApplyTimeAwareness`, and their properties.
- `rsi.dfy` (module `Rsi`): the reference definition of Wilder's averages,
  the loop implementation `ComputeRsi` proved equal to it, `Sma`,
  `SlopeLast`, and their properties. The smoothing loop of `ComputeRsi`
  writes `(avg * (period - 1) + x) / period` through the named helper
  `WilderStep`; the computation is the same.

Numbers are Dafny `real`s, and a JavaScript `null` or `undefined` field
of the scorer's snapshot is modelled as `None`. NaN and ±Infinity are outside the model: every present
value is a finite real, so the `Number.isFinite` tests of the distance rule
always pass on present values. The `clamp`
helper comes from a utility module that is not part of this model. It is
assumed to be `min(max(x, lo), hi)` for `lo <= hi`, and `Utils.Clamp`
states exactly that.

The distance rule has five tiers per side, with bonuses 8/6/4/2/1, and
always applies when the price used (`currentPrice`, else `price`) and the strike
are both present.

## Model

| member | source | states |
|---|---|---|
| Utils.Clamp | src/engines/probability.js:87-88 | the assumed `clamp`: the result lies in [lo, hi], equals x inside the range and the nearer bound outside it |
| Probability.PriceForTarget | src/engines/probability.js:22 | definition of `currentPrice ?? price`, the price the distance rule measures (no contract of its own) |
| Probability.Distance | src/engines/probability.js:24 | definition of the relative distance `(priceForTarget − priceToBeat) / priceToBeat` (no contract of its own; its sign is stated by Probability.DistanceRuleSign) |
| Probability.DistanceRule | src/engines/probability.js:22-48 | the distance rule adds nothing unless the price used and the strike are both present, and otherwise adds at most 8 to at most one side |
| Probability.DistanceBonus | src/engines/probability.js:26-47 | the distance tiers add to at most one side; a bonus is 0, 1, 2, 4, 6 or 8; the up side scores exactly when the distance is positive and the down side exactly when it is negative, so a distance of exactly 0 adds nothing |
| Probability.DistanceBonusMonotone | src/engines/probability.js:26-46 | a larger distance never gives a smaller up bonus or a larger down bonus, so within each side the bonus never decreases as the distance moves away from 0 |
| Probability.DistanceBonusMirror | src/engines/probability.js:26-46 | negating the distance swaps the up and down bonuses: the tiers are the same on both sides |
| Probability.DistanceRuleSign | src/engines/probability.js:22-47 | with a positive strike, the rule favours up exactly when the price used (current price, else price) is above the strike, favours down exactly when it is below, and adds nothing when they are equal |
| Probability.VwapRule | src/engines/probability.js:50-53 | price versus VWAP adds at most 2, and to at most one side |
| Probability.VwapSlopeRule | src/engines/probability.js:55-58 | the VWAP slope sign adds at most 2, and to at most one side |
| Probability.RsiRule | src/engines/probability.js:60-63 | RSI momentum confirmation adds at most 2, and to at most one side |
| Probability.MacdRule | src/engines/probability.js:65-73 | MACD histogram expansion plus the MACD line sign add at most 3 to each side |
| Probability.Truthy | src/engines/probability.js:75 | definition of the `if (heikenColor)` truthiness test: present and not empty (no contract of its own) |
| Probability.LongStreak | src/engines/probability.js:76-77 | definition of `heikenCount >= 2`, which a missing count never meets (no contract of its own) |
| Probability.HeikenRule | src/engines/probability.js:75-78 | a Heiken-Ashi streak adds at most 1, and to at most one side; up gets 1 exactly when the colour is "green" and the count is at least 2, down exactly when it is "red" and the count is at least 2, so the truthiness gate never changes the result |
| Probability.FailedReclaimRule | src/engines/probability.js:80 | a failed VWAP reclaim never helps the up side and adds at most 3 to the down side |
| Probability.SymmetricUp | src/engines/probability.js:26-78 | all rules except the failed reclaim together add at most 18 to the up side |
| Probability.SymmetricDown | src/engines/probability.js:26-78 | all rules except the failed reclaim together add at most 18 to the down side |
| Probability.ScoreDirection | src/engines/probability.js:18-83 | the up score is in [1, 19] and the down score in [1, 22]; rawUp is up/(up+down) and lies strictly between 0 and 1; rawUp is one half exactly when the scores tie and above one half exactly when up leads |
| Probability.RatioFacts | src/engines/probability.js:82 | for scores of at least 1, up/(up+down) is strictly inside (0, 1), is one half exactly on a tie, and is above one half exactly when up is larger |
| Probability.BlankSnapshotIsEven | src/engines/probability.js:18-80 | with every optional input missing and the MACD record holding only nulls, both scores stay 1 and rawUp is 0.5 |
| Probability.MirrorDistance | src/engines/probability.js:22-47 | reflecting the price levels through the strike swaps the distance rule's up and down bonuses |
| Probability.MirrorSwapsScores | src/engines/probability.js:50-80 | every rule except the failed VWAP reclaim is mirror-symmetric: the mirrored snapshot's up score is the original down score without the reclaim penalty, and its down score is the original up score plus that penalty |
| Probability.MirrorComplementsRawUp | src/engines/probability.js:50-82 | without a failed reclaim, the mirrored snapshot's rawUp is 1 minus the original rawUp |
| Probability.RatioComplement | src/engines/probability.js:82 | swapping the two scores turns up/(up+down) into its complement |
| Probability.RatioMonotone | src/engines/probability.js:82 | more up and less down never lowers up/(up+down) |
| Probability.RawUpMonotoneInPrice | src/engines/probability.js:22-82 | with a positive strike and all other inputs fixed, a higher current price never lowers rawUp |
| Probability.ScoreBoundsAreTight | src/engines/probability.js:26-80 | the bounds are reached: one snapshot scores up = 19, another scores down = 22 |
| Probability.TimeDecay | src/engines/probability.js:87 | the decay factor lies in [0, 1]; it is 0 exactly when no time remains; it is 1 exactly when at least the whole window remains; in between it is the remaining share of the window |
| Probability.ApplyTimeAwareness | src/engines/probability.js:86-90 | timeDecay and adjustedUp lie in [0, 1]; adjustedUp + adjustedDown = 1; no time left gives 0.5; a full window leaves a probability rawUp unchanged |
| Probability.Shrink | src/engines/probability.js:88 | adjustedUp lies in [0, 1]; a decay factor of 0 gives 0.5; a factor of 1 leaves a probability rawUp unchanged |
| Probability.ScaledOffsetBetween | src/engines/probability.js:88 | scaling the offset from one half by a factor in [0, 1] lands between one half and the original value |
| Probability.ShrinkStaysBetween | src/engines/probability.js:88 | for any rawUp, adjustedUp lies between 0.5 and rawUp, on the same side of one half |
| Probability.TimeDecayMonotone | src/engines/probability.js:87 | more remaining time never gives a smaller decay factor |
| Probability.ShrinkMonotoneInFactor | src/engines/probability.js:88 | for a probability rawUp, a larger decay factor keeps adjustedUp further from one half |
| Probability.ShrinkMonotoneInTime | src/engines/probability.js:87-88 | for a probability rawUp, more remaining time keeps adjustedUp further from one half |
| Rsi.Change | src/indicators/rsi.js:11 | definition of the close-to-close change `closes[i] - closes[i - 1]` (no contract of its own; its telescoping sum is stated by Rsi.SeedTotals) |
| Rsi.Gain | src/indicators/rsi.js:22 | the upward part of a change is non-negative and is either 0 or the change itself |
| Rsi.Loss | src/indicators/rsi.js:23 | the downward part of a change is non-negative, and gain minus loss gives back the change |
| Rsi.SeedTotals | src/indicators/rsi.js:10-14 | summed gains and losses over the first n changes are non-negative, and their difference telescopes to the net move from the first close to close n |
| Rsi.Smooth | src/indicators/rsi.js:25-26 | a Wilder smoothing step keeps both averages non-negative |
| Rsi.SmoothStaysBetween | src/indicators/rsi.js:25-26 | each smoothed average lies between the previous average and the new gain or loss |
| Rsi.WilderStep | src/indicators/rsi.js:25-26 | one smoothing step `(avg * (period - 1) + x) / period` lies between the previous average and the new term |
| Rsi.WeightedAverageBetween | src/indicators/rsi.js:25-26 | for any weight p ≥ 1, `(a * (p - 1) + b) / p` lies between a and b |
| Rsi.WilderAverages | src/indicators/rsi.js:6-27 | after the seed average and every later smoothing step, the average gain and average loss are non-negative |
| Rsi.RsiOf | src/indicators/rsi.js:29-32 | the index lies in [0, 100]; it is 100 exactly when the average loss is 0; it is 0 exactly when there is loss but no gain; otherwise it is the gain share 100·gain/(gain+loss) |
| Rsi.GainShare | src/indicators/rsi.js:30-31 | `100 - 100 / (1 + gain/loss)` equals 100·gain/(gain+loss) and is below 100, so the clamp never bites |
| Rsi.RsiSpec | src/indicators/rsi.js:3-33 | unknown exactly when there are fewer than period + 1 closes; otherwise a value in [0, 100] |
| Rsi.ComputeRsi | src/indicators/rsi.js:3-33 | the two loops compute the reference definition: unknown exactly on short input, else the index of the final Wilder averages, in [0, 100] |
| Rsi.SeedTotalsRising | src/indicators/rsi.js:10-14 | closes that never fall give zero total loss over the seed |
| Rsi.WilderRising | src/indicators/rsi.js:19-27 | closes that never fall keep the average loss at 0 through every smoothing step |
| Rsi.RisingClosesGiveHundred | src/indicators/rsi.js:29 | closes that never fall give an index of exactly 100 |
| Rsi.SeedTotalsFalling | src/indicators/rsi.js:10-14 | closes that never rise give zero total gain over the seed |
| Rsi.WilderFalling | src/indicators/rsi.js:19-27 | closes that never rise keep the average gain at 0 through every smoothing step |
| Rsi.FallingClosesGiveZero | src/indicators/rsi.js:29-32 | closes that never rise give 100 when the final average loss is 0, and exactly 0 otherwise |
| Rsi.SeedTotalsReflected | src/indicators/rsi.js:10-14 | negating every close swaps total gain and total loss |
| Rsi.SmoothReflected | src/indicators/rsi.js:21-26 | smoothing a negated change from swapped averages gives the swapped smoothed averages |
| Rsi.WilderReflected | src/indicators/rsi.js:6-27 | negating every close swaps the final average gain and average loss |
| Rsi.ComplementaryShares | src/indicators/rsi.js:30-31 | the gain share and the loss share of the same total add up to 100 |
| Rsi.RsiOfSwapped | src/indicators/rsi.js:29-32 | swapping gain and loss turns the index x into 100 − x whenever there was any movement |
| Rsi.ReflectedRsi | src/indicators/rsi.js:3-33 | negating the closes reflects the RSI through 50; if the final averages record no movement, both read 100 |
| Rsi.Window | src/indicators/rsi.js:37 | definition of the trailing window `values.slice(values.length - n)` (no contract of its own) |
| Rsi.Sum | src/indicators/rsi.js:38 | the left-to-right sum that `reduce((a, b) => a + b, 0)` computes; its bounds are stated by Rsi.SumBounds |
| Rsi.SumBounds | src/indicators/rsi.js:38 | a sum of values that each lie in [lo, hi] lies in [count·lo, count·hi] |
| Rsi.MeanBetween | src/indicators/rsi.js:38-39 | the mean of a non-empty window lies between its minimum and its maximum |
| Rsi.Sma | src/indicators/rsi.js:35-40 | unknown exactly when there are fewer than period values; otherwise the result times period equals the sum of the last period values, and it lies between their minimum and maximum |
| Rsi.SmaOfConstantWindow | src/indicators/rsi.js:37-39 | a window of equal values averages to that value |
| Rsi.SlopeLast | src/indicators/rsi.js:42-48 | unknown exactly when there are fewer than points values; otherwise the first window value plus (points − 1) times the result reaches the last window value |
| Rsi.SlopeSign | src/indicators/rsi.js:44-47 | the slope is 0 exactly when the window ends where it starts, and positive exactly when it ends higher |
| Rsi.SlopeOfArithmeticWindow | src/indicators/rsi.js:44-47 | on a window that changes by the same step each time, the slope is that step |

## Left out

- Floating point is not modelled. Values are exact reals, and IEEE rounding, NaN and Infinity do not exist in the model. Non-finite inputs are outside the model rather than mapped to `None`, and two source behaviours on them are lost:
  - Probability.PriceForTarget: `currentPrice ?? price` keeps a NaN or infinite `currentPrice`, and the `Number.isFinite` test then skips the distance rule. The model has no such value, so it never skips the rule this way and never falls back to `price` for it.
  - Probability.VwapRule, Probability.VwapSlopeRule, Probability.RsiRule, Probability.MacdRule: these rules are gated only by `!== null`, so in the source they fire on ±Infinity (for example `vwapSlope = Infinity` adds 2 to up). The model has no infinite values.
- The scorer requires a non-zero strike whenever the distance rule would fire. In JavaScript a zero strike makes the distance infinite or NaN.
- The MACD record must be present. In the source, `macd?.hist !== null` lets a missing `macd` through, and `macd.hist` then throws.
- Probability.MacdRule: the model treats `undefined` like `null`. When either `macd.hist` or `macd.histDelta` is undefined rather than null (one of them or both), the source's `!== null` gate passes, the expansion tests are false, and the MACD line rule (lines 71-72) can still fire; for example `{hist: 1, histDelta: undefined, macd: 2}` adds 1 to up. The model skips the whole rule when either field is missing.
- `heikenColor` is modelled as an optional string, and its truthiness as "present and not empty". Non-string colour values are not modelled.
- `heikenCount` is an optional integer. A missing count never meets `>= 2`.
- Periods and point counts are integers. JavaScript accepts any number: `sma([1, 2, 3], 2.5)` returns 2.4, because `slice(0.5)` truncates the start index while the divisor stays 2.5. Fractional periods are not modelled.
- Probability.ApplyTimeAwareness takes plain reals, so a `null` remaining time or window cannot be passed. In JavaScript `null / w` is 0, so `applyTimeAwareness(r, null, w)` gives a decay factor of 0; that call is not modelled.
- `computeRsi` and `sma` require `period >= 1`, `slopeLast` requires `points >= 2`, and `applyTimeAwareness` requires `windowMinutes > 0`. These exclude every non-positive period, point count and window, not only the ones that divide by zero. The source also evaluates negative values: for example a window of −10 minutes with −5 remaining gives a decay factor of 0.5, and `sma` with a negative period returns −0. These inputs are not modelled.
- The `Array.isArray` checks are not modelled: inputs are typed sequences.
- The lognormal strike-probability model, the volatility estimator, the logit-space blender and the normal-CDF approximation are not part of this model. Their source is not among the modelled files.
- The utility module that defines `clamp` is not part of this model. Only the contract stated for `Utils.Clamp` is assumed.

=== FILE: probability.dfy ===
/**
 The directional heuristic scorer and the time-decay shrink of the
 market-direction estimator (`src/engines/probability.js`).

 The scorer is a decision table: both sides start at a baseline of 1 and
 every rule, gated on its own inputs being present, adds a fixed integer
 bonus to at most one side. Each rule below is a separate function returning
 the bonus it adds to each side, so that it can be reasoned about alone.
 */
module Probability {
  import opened Utils

  /** The MACD fields the scorer reads; the record itself must be present. */
  datatype Macd = Macd(hist: Option<real>, histDelta: Option<real>, line: Option<real>)

  /** One snapshot of the indicators; any field may be missing. */
  datatype Snapshot = Snapshot(
    price: Option<real>,
    priceToBeat: Option<real>,
    currentPrice: Option<real>,
    vwap: Option<real>,
    vwapSlope: Option<real>,
    rsi: Option<real>,
    rsiSlope: Option<real>,
    macd: Macd,
    heikenColor: Option<string>,
    heikenCount: Option<int>,
    failedVwapReclaim: Option<bool>
  )

  /** What one rule adds to the up side and to the down side. */
  datatype Bonus = Bonus(up: nat, down: nat)

  /** The scorer's output. */
  datatype Score = Score(upScore: int, downScore: int, rawUp: real)

  /** The adjusted probability produced by the time-decay shrink. */
  datatype TimeAware = TimeAware(timeDecay: real, adjustedUp: real, adjustedDown: real)

  const NoBonus := Bonus(0, 0)

  /** The largest score each side can reach. */
  const MaxUpScore := 19
  const MaxDownScore := 22

  /**
   The most the rules other than the failed reclaim add to either side:
   8 + 2 + 2 + 2 + 3 + 1.
   */
  const MaxSymmetricBonus := 18

  function Swap(b: Bonus): Bonus {
    Bonus(b.down, b.up)
  }

  /** The price the distance rule measures: `currentPrice ?? price`. */
  function PriceForTarget(s: Snapshot): Option<real> {
    if s.currentPrice.Some? then s.currentPrice else s.price
  }

  /** The distance rule fires when both the reference price and the strike are present. */
  predicate DistanceApplies(s: Snapshot) {
    PriceForTarget(s).Some? && s.priceToBeat.Some?
  }

  /**
   Callers must not pass a zero strike when the distance rule fires: the
   relative distance would be infinite or undefined.
   */
  predicate ValidSnapshot(s: Snapshot) {
    DistanceApplies(s) ==> s.priceToBeat.value != 0.0
  }

  /** Relative distance of the reference price from the strike. */
  function Distance(s: Snapshot): real
    requires DistanceApplies(s) && ValidSnapshot(s)
  {
    (PriceForTarget(s).value - s.priceToBeat.value) / s.priceToBeat.value
  }

  /** The tiered step function of the relative distance: five tiers per side. */
  function DistanceBonus(d: real): (b: Bonus)
    ensures b.up == 0 || b.down == 0
    ensures b.up > 0 <==> d > 0.0
    ensures b.down > 0 <==> d < 0.0
    ensures b.up in {0, 1, 2, 4, 6, 8} && b.down in {0, 1, 2, 4, 6, 8}
    ensures b.up <= 8 && b.down <= 8
  {
    if d > 0.01 then Bonus(8, 0)
    else if d > 0.005 then Bonus(6, 0)
    else if d > 0.002 then Bonus(4, 0)
    else if d > 0.0005 then Bonus(2, 0)
    else if d > 0.0 then Bonus(1, 0)
    else if d < -0.01 then Bonus(0, 8)
    else if d < -0.005 then Bonus(0, 6)
    else if d < -0.002 then Bonus(0, 4)
    else if d < -0.0005 then Bonus(0, 2)
    else if d < 0.0 then Bonus(0, 1)
    else NoBonus
  }

  /** The distance tiers, applied only when the price and the strike are both present. */
  function DistanceRule(s: Snapshot): (b: Bonus)
    requires ValidSnapshot(s)
    ensures !DistanceApplies(s) ==> b == NoBonus
    ensures b.up == 0 || b.down == 0
    ensures b.up <= 8 && b.down <= 8
  {
    if DistanceApplies(s) then DistanceBonus(Distance(s)) else NoBonus
  }

  /** Price above or below the VWAP: two points to that side. */
  function VwapRule(s: Snapshot): (b: Bonus)
    ensures b.up <= 2 && b.down <= 2
    ensures b.up == 0 || b.down == 0
  {
    if s.price.Some? && s.vwap.Some? then
      Bonus(if s.price.value > s.vwap.value then 2 else 0,
            if s.price.value < s.vwap.value then 2 else 0)
    else NoBonus
  }

  /** Sign of the VWAP slope: two points to that side. */
  function VwapSlopeRule(s: Snapshot): (b: Bonus)
    ensures b.up <= 2 && b.down <= 2
    ensures b.up == 0 || b.down == 0
  {
    Bonus(if IsPositive(s.vwapSlope) then 2 else 0,
          if IsNegative(s.vwapSlope) then 2 else 0)
  }

  /** RSI above 55 and rising, or below 45 and falling: two points. */
  function RsiRule(s: Snapshot): (b: Bonus)
    ensures b.up <= 2 && b.down <= 2
    ensures b.up == 0 || b.down == 0
  {
    if s.rsi.Some? && s.rsiSlope.Some? then
      Bonus(if s.rsi.value > 55.0 && s.rsiSlope.value > 0.0 then 2 else 0,
            if s.rsi.value < 45.0 && s.rsiSlope.value < 0.0 then 2 else 0)
    else NoBonus
  }

  /**
   Expanding histogram (two points) and the sign of the MACD line (one
   point), both gated on the histogram and its delta being present.
   */
  function MacdRule(s: Snapshot): (b: Bonus)
    ensures b.up <= 3 && b.down <= 3
  {
    var m := s.macd;
    if m.hist.Some? && m.histDelta.Some? then
      var expandingGreen := m.hist.value > 0.0 && m.histDelta.value > 0.0;
      var expandingRed := m.hist.value < 0.0 && m.histDelta.value < 0.0;
      Bonus((if expandingGreen then 2 else 0) + (if IsPositive(m.line) then 1 else 0),
            (if expandingRed then 2 else 0) + (if IsNegative(m.line) then 1 else 0))
    else NoBonus
  }

  /** A truthy colour: present and not the empty string. */
  predicate Truthy(c: Option<string>) {
    c.Some? && c.value != ""
  }

  /** A streak of at least two bars; a missing count never qualifies. */
  predicate LongStreak(n: Option<int>) {
    n.Some? && n.value >= 2
  }

  /** Heiken-Ashi streak of two or more bars: one point to its colour's side. */
  function HeikenRule(s: Snapshot): (b: Bonus)
    ensures b.up <= 1 && b.down <= 1
    ensures b.up == 0 || b.down == 0
    ensures b.up == 1 <==> s.heikenColor == Some("green") && LongStreak(s.heikenCount)
    ensures b.down == 1 <==> s.heikenColor == Some("red") && LongStreak(s.heikenCount)
  {
    if Truthy(s.heikenColor) then
      Bonus(if s.heikenColor.value == "green" && LongStreak(s.heikenCount) then 1 else 0,
            if s.heikenColor.value == "red" && LongStreak(s.heikenCount) then 1 else 0)
    else NoBonus
  }

  /** A failed VWAP reclaim adds three to the down side only. */
  function FailedReclaimRule(s: Snapshot): (b: Bonus)
    ensures b.up == 0 && b.down <= 3
  {
    if s.failedVwapReclaim == Some(true) then Bonus(0, 3) else NoBonus
  }

  /** Sum of the up bonuses of every rule except the failed reclaim. */
  function SymmetricUp(s: Snapshot): (n: nat)
    requires ValidSnapshot(s)
    ensures n <= MaxSymmetricBonus
  {
    DistanceRule(s).up + VwapRule(s).up + VwapSlopeRule(s).up + RsiRule(s).up
      + MacdRule(s).up + HeikenRule(s).up
  }

  /** Sum of the down bonuses of every rule except the failed reclaim. */
  function SymmetricDown(s: Snapshot): (n: nat)
    requires ValidSnapshot(s)
    ensures n <= MaxSymmetricBonus
  {
    DistanceRule(s).down + VwapRule(s).down + VwapSlopeRule(s).down + RsiRule(s).down
      + MacdRule(s).down + HeikenRule(s).down
  }

  /** The up/down odds ratio as a probability. */
  function Ratio(up: int, down: int): real
    requires up >= 1 && down >= 1
  {
    up as real / (up + down) as real
  }

  /**
   `scoreDirection`: baseline 1 on each side plus every rule's bonus; the
   scores stay within their bounds and `rawUp` is a proper probability.
   */
  function ScoreDirection(s: Snapshot): (r: Score)
    requires ValidSnapshot(s)
    ensures 1 <= r.upScore <= MaxUpScore
    ensures 1 <= r.downScore <= MaxDownScore
    ensures 0.0 < r.rawUp < 1.0
    ensures r.rawUp == Ratio(r.upScore, r.downScore)
    ensures r.rawUp == 0.5 <==> r.upScore == r.downScore
    ensures r.rawUp > 0.5 <==> r.upScore > r.downScore
  {
    var up := 1 + SymmetricUp(s);
    var down := 1 + SymmetricDown(s) + FailedReclaimRule(s).down;
    RatioFacts(up, down);
    Score(up, down, Ratio(up, down))
  }

  lemma RatioFacts(up: int, down: int)
    requires up >= 1 && down >= 1
    ensures 0.0 < Ratio(up, down) < 1.0
    ensures Ratio(up, down) * (up + down) as real == up as real
    ensures Ratio(up, down) == 0.5 <==> up == down
    ensures Ratio(up, down) > 0.5 <==> up > down
  {
    var t := (up + down) as real;
    var q := Ratio(up, down);
    DivCompare(up as real, t, 0.0);
    DivCompare(up as real, t, 1.0);
    assert q == 0.5 <==> up as real == 0.5 * t by { DivCompare(up as real, t, 0.5); }
    assert q > 0.5 <==> up as real > 0.5 * t by { DivCompare(up as real, t, 0.5); }
  }

  /**
   `applyTimeAwareness`: the fraction of the window still remaining, clamped
   to [0, 1], scales the distance of `rawUp` from one half.
   */
  function ApplyTimeAwareness(rawUp: real, remainingMinutes: real, windowMinutes: real): (r: TimeAware)
    requires windowMinutes > 0.0
    ensures 0.0 <= r.timeDecay <= 1.0
    ensures 0.0 <= r.adjustedUp <= 1.0
    ensures r.adjustedUp + r.adjustedDown == 1.0
    ensures remainingMinutes <= 0.0 ==> r.timeDecay == 0.0 && r.adjustedUp == 0.5
    ensures remainingMinutes >= windowMinutes && 0.0 <= rawUp <= 1.0 ==> r.adjustedUp == rawUp
  {
    var timeDecay := TimeDecay(remainingMinutes, windowMinutes);
    var adjustedUp := Shrink(rawUp, timeDecay);
    TimeAware(timeDecay, adjustedUp, 1.0 - adjustedUp)
  }

  /** The offset of `rawUp` from one half scaled by `td`, clamped to [0, 1]. */
  function Shrink(rawUp: real, td: real): (r: real)
    requires 0.0 <= td <= 1.0
    ensures 0.0 <= r <= 1.0
    ensures td == 0.0 ==> r == 0.5
    ensures td == 1.0 && 0.0 <= rawUp <= 1.0 ==> r == rawUp
  {
    Clamp(0.5 + (rawUp - 0.5) * td, 0.0, 1.0)
  }

  /** The fraction of the window still remaining, clamped to [0, 1]. */
  function TimeDecay(remainingMinutes: real, windowMinutes: real): (td: real)
    requires windowMinutes > 0.0
    ensures 0.0 <= td <= 1.0
    ensures remainingMinutes <= 0.0 <==> td == 0.0
    ensures remainingMinutes >= windowMinutes <==> td == 1.0
    ensures 0.0 <= remainingMinutes <= windowMinutes ==> td * windowMinutes == remainingMinutes
  {
    DivCompare(remainingMinutes, windowMinutes, 1.0);
    DivCompare(remainingMinutes, windowMinutes, 0.0);
    Clamp(remainingMinutes / windowMinutes, 0.0, 1.0)
  }

  // ----- The distance tiers -----

  /** Further above the strike never scores less up and never more down. */
  lemma DistanceBonusMonotone(d1: real, d2: real)
    requires d1 <= d2
    ensures DistanceBonus(d1).up <= DistanceBonus(d2).up
    ensures DistanceBonus(d1).down >= DistanceBonus(d2).down
  {
  }

  /** The tiers are the same on both sides of the strike. */
  lemma DistanceBonusMirror(d: real)
    ensures DistanceBonus(-d) == Swap(DistanceBonus(d))
  {
  }

  /** With a positive strike, the side the distance rule favours is the side the price is on. */
  lemma DistanceRuleSign(s: Snapshot)
    requires DistanceApplies(s) && s.priceToBeat.value > 0.0
    ensures DistanceRule(s).up > 0 <==> PriceForTarget(s).value > s.priceToBeat.value
    ensures DistanceRule(s).down > 0 <==> PriceForTarget(s).value < s.priceToBeat.value
    ensures DistanceRule(s) == NoBonus <==> PriceForTarget(s).value == s.priceToBeat.value
  {
  }

  // ----- Absent inputs -----

  /** Every optional input missing and the MACD record holding only nulls. */
  const Blank := Snapshot(None, None, None, None, None, None, None,
                          Macd(None, None, None), None, None, None)

  /** With nothing to go on, both sides keep their baseline and the odds are even. */
  lemma BlankSnapshotIsEven()
    ensures ValidSnapshot(Blank)
    ensures ScoreDirection(Blank) == Score(1, 1, 0.5)
  {
  }

  // ----- Mirror symmetry -----

  /** Reflection of a price level through `c`. */
  function Reflect(x: Option<real>, c: real): Option<real> {
    if x.Some? then Some(2.0 * c - x.value) else None
  }

  function Negate(x: Option<real>): Option<real> {
    if x.Some? then Some(-x.value) else None
  }

  function MirrorColor(c: Option<string>): Option<string> {
    if c == Some("green") then Some("red")
    else if c == Some("red") then Some("green")
    else c
  }

  /**
   The bearish twin of a snapshot: price levels reflected through the
   strike, signed indicators negated, RSI reflected through 50 and the
   candle colour swapped. The failed-reclaim flag is kept.
   */
  function Mirror(s: Snapshot): Snapshot {
    var c := if s.priceToBeat.Some? then s.priceToBeat.value else 0.0;
    s.(price := Reflect(s.price, c),
       currentPrice := Reflect(s.currentPrice, c),
       vwap := Reflect(s.vwap, c),
       vwapSlope := Negate(s.vwapSlope),
       rsi := if s.rsi.Some? then Some(100.0 - s.rsi.value) else None,
       rsiSlope := Negate(s.rsiSlope),
       macd := Macd(Negate(s.macd.hist), Negate(s.macd.histDelta), Negate(s.macd.line)),
       heikenColor := MirrorColor(s.heikenColor))
  }

  lemma MirrorDistance(s: Snapshot)
    requires ValidSnapshot(s)
    ensures ValidSnapshot(Mirror(s))
    ensures DistanceRule(Mirror(s)) == Swap(DistanceRule(s))
  {
    var m := Mirror(s);
    if DistanceApplies(s) {
      var k := s.priceToBeat.value;
      var p := PriceForTarget(s).value;
      assert PriceForTarget(m) == Some(2.0 * k - p);
      assert Distance(m) == ((2.0 * k - p) - k) / k;
      assert (2.0 * k - p) - k == -(p - k);
      NegateQuotient(p - k, k);
      assert Distance(m) == -Distance(s);
      DistanceBonusMirror(Distance(s));
    }
  }

  /**
   Every rule but the failed reclaim is mirror-symmetric: the mirrored
   snapshot scores on the up side what the original scored on the down
   side, and the failed-reclaim penalty stays on the down side.
   */
  lemma MirrorSwapsScores(s: Snapshot)
    requires ValidSnapshot(s)
    ensures ValidSnapshot(Mirror(s))
    ensures ScoreDirection(Mirror(s)).upScore
            == ScoreDirection(s).downScore - FailedReclaimRule(s).down
    ensures ScoreDirection(Mirror(s)).downScore
            == ScoreDirection(s).upScore + FailedReclaimRule(s).down
  {
    var m := Mirror(s);
    MirrorDistance(s);
    assert VwapRule(m) == Swap(VwapRule(s));
    assert VwapSlopeRule(m) == Swap(VwapSlopeRule(s));
    assert RsiRule(m) == Swap(RsiRule(s));
    assert MacdRule(m) == Swap(MacdRule(s));
    assert HeikenRule(m) == Swap(HeikenRule(s));
    assert FailedReclaimRule(m) == FailedReclaimRule(s);
  }

  /** Without a failed reclaim the mirrored snapshot gets the complementary probability. */
  lemma MirrorComplementsRawUp(s: Snapshot)
    requires ValidSnapshot(s)
    requires s.failedVwapReclaim != Some(true)
    ensures ValidSnapshot(Mirror(s))
    ensures ScoreDirection(Mirror(s)).rawUp == 1.0 - ScoreDirection(s).rawUp
  {
    MirrorSwapsScores(s);
    var r := ScoreDirection(s);
    RatioComplement(r.upScore, r.downScore);
  }

  lemma RatioComplement(up: int, down: int)
    requires up >= 1 && down >= 1
    ensures Ratio(down, up) == 1.0 - Ratio(up, down)
  {
    var t := (up + down) as real;
    DivCompare(up as real, t, 0.0);
    DivCompare(down as real, t, 1.0 - up as real / t);
  }

  // ----- Monotonicity in the price -----

  lemma RatioMonotone(u1: int, d1: int, u2: int, d2: int)
    requires 1 <= u1 <= u2
    requires d1 >= d2 >= 1
    ensures Ratio(u1, d1) <= Ratio(u2, d2)
  {
    var t1 := (u1 + d1) as real;
    var t2 := (u2 + d2) as real;
    var q1 := Ratio(u1, d1);
    var q2 := Ratio(u2, d2);
    DivCompare(u1 as real, t1, 0.0);
    DivCompare(u2 as real, t2, 0.0);
    // q = 1 / (1 + d/u): a larger u and a smaller d both raise it
    assert u1 * d2 <= u2 * d1 by {
      assert u1 * d2 <= u2 * d2;
      assert u2 * d2 <= u2 * d1;
    }
    if q1 > q2 {
      MulPositive(q1 - q2, t1 * t2);
      assert false;
    }
  }

  /**
   Raising the current price, everything else fixed and the strike
   positive, never lowers the probability of finishing up.
   */
  lemma RawUpMonotoneInPrice(s: Snapshot, c1: real, c2: real)
    requires s.priceToBeat.Some? && s.priceToBeat.value > 0.0
    requires c1 <= c2
    ensures ScoreDirection(s.(currentPrice := Some(c1))).rawUp
            <= ScoreDirection(s.(currentPrice := Some(c2))).rawUp
  {
    var s1 := s.(currentPrice := Some(c1));
    var s2 := s.(currentPrice := Some(c2));
    var k := s.priceToBeat.value;
    assert Distance(s1) == (c1 - k) / k;
    assert Distance(s2) == (c2 - k) / k;
    assert Distance(s1) <= Distance(s2) by {
      DivCompare(c1 - k, k, (c2 - k) / k);
      DivCompare(c2 - k, k, 0.0);
    }
    DistanceBonusMonotone(Distance(s1), Distance(s2));
    assert DistanceRule(s1).up <= DistanceRule(s2).up;
    assert DistanceRule(s1).down >= DistanceRule(s2).down;
    assert VwapRule(s1) == VwapRule(s2);
    assert VwapSlopeRule(s1) == VwapSlopeRule(s2);
    assert RsiRule(s1) == RsiRule(s2);
    assert MacdRule(s1) == MacdRule(s2);
    assert HeikenRule(s1) == HeikenRule(s2);
    assert FailedReclaimRule(s1) == FailedReclaimRule(s2);
    var r1 := ScoreDirection(s1);
    var r2 := ScoreDirection(s2);
    RatioMonotone(r1.upScore, r1.downScore, r2.upScore, r2.downScore);
  }

  // ----- The bounds are reached -----

  /** Every bullish rule firing at once. */
  const Bullish := Snapshot(Some(102.0), Some(100.0), None, Some(101.0), Some(1.0),
                            Some(60.0), Some(1.0), Macd(Some(1.0), Some(1.0), Some(1.0)),
                            Some("green"), Some(3), Some(false))

  /** Every bearish rule firing at once, failed reclaim included. */
  const Bearish := Mirror(Bullish).(failedVwapReclaim := Some(true))

  lemma ScoreBoundsAreTight()
    ensures ValidSnapshot(Bullish) && ScoreDirection(Bullish).upScore == MaxUpScore
    ensures ValidSnapshot(Bearish) && ScoreDirection(Bearish).downScore == MaxDownScore
  {
  }

  // ----- The time-decay shrink -----

  /** Scaling the offset from one half by a factor in [0, 1] keeps it between one half and `p`. */
  lemma ScaledOffsetBetween(p: real, td: real)
    requires 0.0 <= td <= 1.0
    ensures p >= 0.5 ==> 0.5 <= 0.5 + (p - 0.5) * td <= p
    ensures p <= 0.5 ==> p <= 0.5 + (p - 0.5) * td <= 0.5
  {
    var e := p - 0.5;
    assert e - e * td == e * (1.0 - td);
    if e >= 0.0 {
      MulNonnegative(e, td);
      MulNonnegative(e, 1.0 - td);
    } else {
      MulNonnegative(-e, td);
      MulNonnegative(-e, 1.0 - td);
    }
  }

  /** The adjusted probability lies between one half and `rawUp`. */
  lemma ShrinkStaysBetween(rawUp: real, remainingMinutes: real, windowMinutes: real)
    requires windowMinutes > 0.0
    ensures var a := ApplyTimeAwareness(rawUp, remainingMinutes, windowMinutes).adjustedUp;
            (rawUp >= 0.5 ==> 0.5 <= a <= rawUp) && (rawUp <= 0.5 ==> rawUp <= a <= 0.5)
  {
    ScaledOffsetBetween(rawUp, ApplyTimeAwareness(rawUp, remainingMinutes, windowMinutes).timeDecay);
  }

  /** More time remaining never means a smaller decay factor. */
  lemma TimeDecayMonotone(r1: real, r2: real, windowMinutes: real)
    requires windowMinutes > 0.0
    requires r1 <= r2
    ensures TimeDecay(r1, windowMinutes) <= TimeDecay(r2, windowMinutes)
  {
  }

  /** For a probability `rawUp`, a larger factor keeps it further from one half. */
  lemma ShrinkMonotoneInFactor(rawUp: real, t1: real, t2: real)
    requires 0.0 <= rawUp <= 1.0
    requires 0.0 <= t1 <= t2 <= 1.0
    ensures rawUp >= 0.5 ==> Shrink(rawUp, t1) <= Shrink(rawUp, t2)
    ensures rawUp <= 0.5 ==> Shrink(rawUp, t2) <= Shrink(rawUp, t1)
  {
    var e := rawUp - 0.5;
    ScaledOffsetBetween(rawUp, t1);
    ScaledOffsetBetween(rawUp, t2);
    assert e * t2 - e * t1 == e * (t2 - t1);
    if e >= 0.0 {
      MulNonnegative(e, t2 - t1);
    } else {
      MulNonnegative(-e, t2 - t1);
    }
  }

  /**
   For a probability `rawUp`, the more of the window remains, the further
   the adjusted probability stays from one half.
   */
  lemma ShrinkMonotoneInTime(rawUp: real, r1: real, r2: real, windowMinutes: real)
    requires windowMinutes > 0.0
    requires 0.0 <= rawUp <= 1.0
    requires r1 <= r2
    ensures var a1 := ApplyTimeAwareness(rawUp, r1, windowMinutes).adjustedUp;
            var a2 := ApplyTimeAwareness(rawUp, r2, windowMinutes).adjustedUp;
            (rawUp >= 0.5 ==> a1 <= a2) && (rawUp <= 0.5 ==> a2 <= a1)
  {
    TimeDecayMonotone(r1, r2, windowMinutes);
    ShrinkMonotoneInFactor(rawUp, TimeDecay(r1, windowMinutes), TimeDecay(r2, windowMinutes));
  }
}

=== FILE: rsi.dfy ===
/**
 Windowed indicator arithmetic (`src/indicators/rsi.js`): Wilder's relative
 strength index, the trailing simple moving average and the endpoint slope
 of a trailing window.

 Wilder's RSI is defined here twice: once as recursive functions over the
 close series (the reference), once as the two loops of `computeRsi`
 (`ComputeRsi`), which is proved to compute the reference.
 */
module Rsi {
  import opened Utils

  /** Average (or total) gain and loss over a run of close-to-close changes. */
  datatype Averages = Averages(gain: real, loss: real)

  function SwapSides(a: Averages): Averages {
    Averages(a.loss, a.gain)
  }

  /** The upward part of a change. */
  function Gain(d: real): (g: real)
    ensures g >= 0.0
    ensures g == 0.0 || g == d
  {
    if d > 0.0 then d else 0.0
  }

  /** The downward part of a change, as a non-negative amount. */
  function Loss(d: real): (l: real)
    ensures l >= 0.0
    ensures Gain(d) - l == d
  {
    if d < 0.0 then -d else 0.0
  }

  /** The change from close `i - 1` to close `i`. */
  function Change(closes: seq<real>, i: int): real
    requires 1 <= i < |closes|
  {
    closes[i] - closes[i - 1]
  }

  /**
   Total gain and total loss over the first `n` changes; their difference
   telescopes to the net move from the first close to close `n`.
   */
  function SeedTotals(closes: seq<real>, n: nat): (t: Averages)
    requires n < |closes|
    ensures t.gain >= 0.0 && t.loss >= 0.0
    ensures t.gain - t.loss == closes[n] - closes[0]
    decreases n
  {
    if n == 0 then Averages(0.0, 0.0)
    else
      var t := SeedTotals(closes, n - 1);
      var d := Change(closes, n);
      Averages(t.gain + Gain(d), t.loss + Loss(d))
  }

  /**
   One step of Wilder's smoothing: a weighted average of the previous
   average (weight `period - 1`) and the new change (weight 1).
   */
  function Smooth(a: Averages, d: real, period: int): (r: Averages)
    requires period >= 1
    requires a.gain >= 0.0 && a.loss >= 0.0
    ensures r.gain >= 0.0 && r.loss >= 0.0
  {
    SmoothStaysBetween(a, d, period);
    SmoothedValue(a, d, period)
  }

  function SmoothedValue(a: Averages, d: real, period: int): Averages
    requires period >= 1
  {
    Averages(WilderStep(a.gain, Gain(d), period), WilderStep(a.loss, Loss(d), period))
  }

  /**
   `(avg * (period - 1) + x) / period`: a weighted mean of the previous
   average and the new term, so it lies between them.
   */
  function WilderStep(avg: real, x: real, period: int): (r: real)
    requires period >= 1
    ensures Between(r, avg, x)
  {
    WeightedAverageBetween(avg, x, period as real);
    (avg * (period - 1) as real + x) / period as real
  }

  /** The smoothed average lies between the previous average and the new change. */
  lemma SmoothStaysBetween(a: Averages, d: real, period: int)
    requires period >= 1
    ensures var r := SmoothedValue(a, d, period);
            Between(r.gain, a.gain, Gain(d)) && Between(r.loss, a.loss, Loss(d))
  {
  }

  /** `x` lies between `a` and `b`, in either order. */
  predicate Between(x: real, a: real, b: real) {
    (a <= x <= b) || (b <= x <= a)
  }

  lemma WeightedAverageBetween(a: real, b: real, p: real)
    requires p >= 1.0
    ensures Between((a * (p - 1.0) + b) / p, a, b)
  {
  }

  /**
   Wilder's averages after the change into close `n`: the simple average of
   the first `period` changes, then one smoothing step per later change.
   */
  function WilderAverages(closes: seq<real>, period: int, n: int): (a: Averages)
    requires 1 <= period <= n < |closes|
    ensures a.gain >= 0.0 && a.loss >= 0.0
    decreases n
  {
    if n == period then
      var t := SeedTotals(closes, period);
      DivCompare(t.gain, period as real, 0.0);
      DivCompare(t.loss, period as real, 0.0);
      Averages(t.gain / period as real, t.loss / period as real)
    else
      Smooth(WilderAverages(closes, period, n - 1), Change(closes, n), period)
  }

  /**
   The index from Wilder's averages: 100 when there is no loss at all,
   otherwise the share of gain in the total movement, scaled to 100.
   */
  function RsiOf(a: Averages): (r: real)
    requires a.gain >= 0.0 && a.loss >= 0.0
    ensures 0.0 <= r <= 100.0
    ensures r == 100.0 <==> a.loss == 0.0
    ensures r == 0.0 <==> a.gain == 0.0 && a.loss > 0.0
    ensures a.loss > 0.0 ==> r * (a.gain + a.loss) == 100.0 * a.gain
  {
    if a.loss == 0.0 then 100.0
    else
      var rs := a.gain / a.loss;
      GainShare(a.gain, a.loss);
      Clamp(100.0 - 100.0 / (1.0 + rs), 0.0, 100.0)
  }

  /** `100 - 100 / (1 + g / l)` is the gain share `100 g / (g + l)`, below 100. */
  lemma GainShare(g: real, l: real)
    requires g >= 0.0 && l > 0.0
    ensures var x := 100.0 - 100.0 / (1.0 + g / l);
            0.0 <= x < 100.0 && x * (g + l) == 100.0 * g && (x == 0.0 <==> g == 0.0)
  {
  }

  /**
   `computeRsi`: unknown when there are fewer than `period + 1` closes,
   otherwise the index of the final Wilder averages.
   */
  function RsiSpec(closes: seq<real>, period: int): (r: Option<real>)
    requires period >= 1
    ensures r.None? <==> |closes| < period + 1
    ensures r.Some? ==> 0.0 <= r.value <= 100.0
  {
    if |closes| < period + 1 then None
    else Some(RsiOf(WilderAverages(closes, period, |closes| - 1)))
  }

  /**
   The two loops of `computeRsi`: sum the first `period` changes, divide,
   then apply Wilder's smoothing to every later change.
   */
  method ComputeRsi(closes: seq<real>, period: int) returns (r: Option<real>)
    requires period >= 1
    ensures r == RsiSpec(closes, period)
    ensures r.None? <==> |closes| < period + 1
    ensures r.Some? ==> 0.0 <= r.value <= 100.0
  {
    if |closes| < period + 1 {
      return None;
    }
    var avgGain := 0.0;
    var avgLoss := 0.0;
    var i := 1;
    while i <= period
      invariant 1 <= i <= period + 1
      invariant Averages(avgGain, avgLoss) == SeedTotals(closes, i - 1)
    {
      var diff := closes[i] - closes[i - 1];
      if diff > 0.0 {
        avgGain := avgGain + diff;
      } else {
        avgLoss := avgLoss + -diff;
      }
      i := i + 1;
    }
    avgGain := avgGain / period as real;
    avgLoss := avgLoss / period as real;
    assert Averages(avgGain, avgLoss) == WilderAverages(closes, period, period);

    i := period + 1;
    while i < |closes|
      invariant period + 1 <= i <= |closes|
      invariant Averages(avgGain, avgLoss) == WilderAverages(closes, period, i - 1)
    {
      var diff := closes[i] - closes[i - 1];
      var gain := if diff > 0.0 then diff else 0.0;
      var loss := if diff < 0.0 then -diff else 0.0;
      assert gain == Gain(diff) && loss == Loss(diff);
      avgGain := WilderStep(avgGain, gain, period);
      avgLoss := WilderStep(avgLoss, loss, period);
      i := i + 1;
    }

    if avgLoss == 0.0 {
      return Some(100.0);
    }
    var rs := avgGain / avgLoss;
    var rsi := 100.0 - 100.0 / (1.0 + rs);
    r := Some(Clamp(rsi, 0.0, 100.0));
  }

  // ----- Properties of the index -----

  predicate NonDecreasing(s: seq<real>) {
    forall i :: 0 < i < |s| ==> s[i - 1] <= s[i]
  }

  predicate NonIncreasing(s: seq<real>) {
    forall i :: 0 < i < |s| ==> s[i - 1] >= s[i]
  }

  lemma {:induction false} SeedTotalsRising(closes: seq<real>, n: nat)
    requires n < |closes|
    requires NonDecreasing(closes)
    ensures SeedTotals(closes, n).loss == 0.0
    decreases n
  {
    if n > 0 {
      SeedTotalsRising(closes, n - 1);
      assert closes[n - 1] <= closes[n];
    }
  }

  lemma {:induction false} WilderRising(closes: seq<real>, period: int, n: int)
    requires 1 <= period <= n < |closes|
    requires NonDecreasing(closes)
    ensures WilderAverages(closes, period, n).loss == 0.0
    decreases n
  {
    if n == period {
      SeedTotalsRising(closes, period);
    } else {
      WilderRising(closes, period, n - 1);
      assert closes[n - 1] <= closes[n];
    }
  }

  /** Closes that never fall give an index of exactly 100. */
  lemma RisingClosesGiveHundred(closes: seq<real>, period: int)
    requires period >= 1 && |closes| >= period + 1
    requires NonDecreasing(closes)
    ensures RsiSpec(closes, period) == Some(100.0)
  {
    WilderRising(closes, period, |closes| - 1);
  }

  lemma {:induction false} SeedTotalsFalling(closes: seq<real>, n: nat)
    requires n < |closes|
    requires NonIncreasing(closes)
    ensures SeedTotals(closes, n).gain == 0.0
    decreases n
  {
    if n > 0 {
      SeedTotalsFalling(closes, n - 1);
      assert closes[n - 1] >= closes[n];
    }
  }

  lemma {:induction false} WilderFalling(closes: seq<real>, period: int, n: int)
    requires 1 <= period <= n < |closes|
    requires NonIncreasing(closes)
    ensures WilderAverages(closes, period, n).gain == 0.0
    decreases n
  {
    if n == period {
      SeedTotalsFalling(closes, period);
    } else {
      WilderFalling(closes, period, n - 1);
      assert closes[n - 1] >= closes[n];
    }
  }

  /** Closes that never rise give 0, or 100 when the averages show no movement at all. */
  lemma FallingClosesGiveZero(closes: seq<real>, period: int)
    requires period >= 1 && |closes| >= period + 1
    requires NonIncreasing(closes)
    ensures RsiSpec(closes, period)
            == Some(if WilderAverages(closes, period, |closes| - 1).loss == 0.0 then 100.0 else 0.0)
  {
    WilderFalling(closes, period, |closes| - 1);
  }

  /** The close series reflected through zero: every rise becomes a fall. */
  function Reflected(closes: seq<real>): seq<real> {
    seq(|closes|, i requires 0 <= i < |closes| => -closes[i])
  }

  lemma {:induction false} SeedTotalsReflected(closes: seq<real>, n: nat)
    requires n < |closes|
    ensures SeedTotals(Reflected(closes), n) == SwapSides(SeedTotals(closes, n))
    decreases n
  {
    if n > 0 {
      SeedTotalsReflected(closes, n - 1);
      assert Change(Reflected(closes), n) == -Change(closes, n);
    }
  }

  lemma SmoothReflected(a: Averages, d: real, period: int)
    requires period >= 1
    requires a.gain >= 0.0 && a.loss >= 0.0
    ensures Smooth(SwapSides(a), -d, period) == SwapSides(Smooth(a, d, period))
  {
  }

  lemma {:induction false} WilderReflected(closes: seq<real>, period: int, n: int)
    requires 1 <= period <= n < |closes|
    ensures WilderAverages(Reflected(closes), period, n)
            == SwapSides(WilderAverages(closes, period, n))
    decreases n
  {
    if n == period {
      SeedTotalsReflected(closes, period);
    } else {
      WilderReflected(closes, period, n - 1);
      assert Change(Reflected(closes), n) == -Change(closes, n);
      SmoothReflected(WilderAverages(closes, period, n - 1), Change(closes, n), period);
    }
  }

  /** Two shares of the same positive total that add up to the whole. */
  lemma ComplementaryShares(x: real, y: real, g: real, l: real)
    requires g + l > 0.0
    requires x * (g + l) == 100.0 * g
    requires y * (l + g) == 100.0 * l
    ensures y == 100.0 - x
  {
    assert l + g == g + l;
    assert y * (g + l) == 100.0 * l;
    assert (100.0 - x) * (g + l) == 100.0 * (g + l) - x * (g + l);
    assert (100.0 - x) * (g + l) == y * (g + l);
    DivCompare(y * (g + l), g + l, y);
    DivCompare(y * (g + l), g + l, 100.0 - x);
  }

  /** Swapping gain and loss complements the index, unless neither moved. */
  lemma RsiOfSwapped(a: Averages)
    requires a.gain >= 0.0 && a.loss >= 0.0
    requires a.gain + a.loss > 0.0
    ensures RsiOf(SwapSides(a)) == 100.0 - RsiOf(a)
  {
    var x := RsiOf(a);
    var y := RsiOf(SwapSides(a));
    if a.loss > 0.0 && a.gain > 0.0 {
      ComplementaryShares(x, y, a.gain, a.loss);
    }
  }

  /**
   Reflecting the closes through zero reflects the index through 50, except
   when the final averages record no movement, where both read 100.
   */
  lemma ReflectedRsi(closes: seq<real>, period: int)
    requires period >= 1 && |closes| >= period + 1
    ensures var a := WilderAverages(closes, period, |closes| - 1);
            var r := RsiSpec(closes, period).value;
            var m := RsiSpec(Reflected(closes), period).value;
            (a.gain + a.loss > 0.0 ==> m == 100.0 - r)
            && (a.gain + a.loss == 0.0 ==> m == 100.0 && r == 100.0)
  {
    var a := WilderAverages(closes, period, |closes| - 1);
    WilderReflected(closes, period, |closes| - 1);
    if a.gain + a.loss > 0.0 {
      RsiOfSwapped(a);
    }
  }

  // ----- Simple moving average -----

  /** Left-to-right sum, as `reduce((a, b) => a + b, 0)` adds. */
  function Sum(s: seq<real>): real
    decreases |s|
  {
    if |s| == 0 then 0.0 else Sum(s[..|s| - 1]) + s[|s| - 1]
  }

  /** The last `n` values. */
  function Window(values: seq<real>, n: int): seq<real>
    requires 0 <= n <= |values|
  {
    values[|values| - n..]
  }

  function SeqMin(s: seq<real>): (m: real)
    requires |s| > 0
    ensures forall i :: 0 <= i < |s| ==> m <= s[i]
    decreases |s|
  {
    if |s| == 1 then s[0]
    else
      var m := SeqMin(s[..|s| - 1]);
      assert forall i :: 0 <= i < |s| - 1 ==> s[..|s| - 1][i] == s[i];
      if s[|s| - 1] < m then s[|s| - 1] else m
  }

  function SeqMax(s: seq<real>): (m: real)
    requires |s| > 0
    ensures forall i :: 0 <= i < |s| ==> s[i] <= m
    decreases |s|
  {
    if |s| == 1 then s[0]
    else
      var m := SeqMax(s[..|s| - 1]);
      assert forall i :: 0 <= i < |s| - 1 ==> s[..|s| - 1][i] == s[i];
      if s[|s| - 1] > m then s[|s| - 1] else m
  }

  /** The minimum and the maximum are values of the run itself. */
  lemma {:induction false} SeqMinMaxAreElements(s: seq<real>)
    requires |s| > 0
    ensures SeqMin(s) in s && SeqMax(s) in s
    decreases |s|
  {
    if |s| > 1 {
      var init := s[..|s| - 1];
      SeqMinMaxAreElements(init);
      assert forall x :: x in init ==> x in s;
    }
  }

  /** A sum of `|s|` values each within [lo, hi] lies within [|s| lo, |s| hi]. */
  lemma {:induction false} SumBounds(s: seq<real>, lo: real, hi: real)
    requires forall i :: 0 <= i < |s| ==> lo <= s[i] <= hi
    ensures |s| as real * lo <= Sum(s) <= |s| as real * hi
    decreases |s|
  {
    if |s| > 0 {
      var init := s[..|s| - 1];
      assert forall i :: 0 <= i < |init| ==> init[i] == s[i];
      SumBounds(init, lo, hi);
    }
  }

  /** The mean of a non-empty run lies between its minimum and maximum. */
  lemma MeanBetween(w: seq<real>)
    requires |w| > 0
    ensures SeqMin(w) <= Sum(w) / |w| as real <= SeqMax(w)
  {
    SumBounds(w, SeqMin(w), SeqMax(w));
    QuotientBetween(Sum(w), |w| as real, SeqMin(w), SeqMax(w));
  }

  lemma QuotientBetween(total: real, p: real, lo: real, hi: real)
    requires p > 0.0
    requires p * lo <= total <= p * hi
    ensures lo <= total / p <= hi
  {
  }

  /**
   `sma`: unknown with fewer than `period` values, otherwise the mean of
   the last `period` values, which lies between their minimum and maximum.
   */
  function Sma(values: seq<real>, period: int): (r: Option<real>)
    requires period >= 1
    ensures r.None? <==> |values| < period
    ensures r.Some? ==> r.value * period as real == Sum(Window(values, period))
    ensures r.Some? ==> SeqMin(Window(values, period)) <= r.value <= SeqMax(Window(values, period))
  {
    if |values| < period then None
    else
      var w := Window(values, period);
      MeanBetween(w);
      DivCompare(Sum(w), period as real, 0.0);
      Some(Sum(w) / period as real)
  }

  /** A window of equal values averages to that value. */
  lemma SmaOfConstantWindow(values: seq<real>, period: int, x: real)
    requires 1 <= period <= |values|
    requires forall i :: |values| - period <= i < |values| ==> values[i] == x
    ensures Sma(values, period) == Some(x)
  {
    var w := Window(values, period);
    assert forall i :: 0 <= i < |w| ==> w[i] == x;
    SeqMinMaxAreElements(w);
  }

  // ----- Endpoint slope -----

  /**
   `slopeLast`: unknown with fewer than `points` values, otherwise the rise
   per step from the first to the last value of the trailing window.
   */
  function SlopeLast(values: seq<real>, points: int): (r: Option<real>)
    requires points >= 2
    ensures r.None? <==> |values| < points
    ensures r.Some? ==> values[|values| - points] + r.value * (points - 1) as real == values[|values| - 1]
  {
    if |values| < points then None
    else
      var w := Window(values, points);
      var first := w[0];
      var last := w[|w| - 1];
      DivCompare(last - first, (points - 1) as real, 0.0);
      Some((last - first) / (points - 1) as real)
  }

  /** The slope is zero exactly when the window ends where it starts, and its sign is the net move's. */
  lemma SlopeSign(values: seq<real>, points: int)
    requires 2 <= points <= |values|
    ensures var first := values[|values| - points];
            var last := values[|values| - 1];
            var r := SlopeLast(values, points).value;
            (r == 0.0 <==> last == first) && (r > 0.0 <==> last > first)
  {
  }

  /** On a trailing window that moves by the same step each time, the slope is that step. */
  lemma SlopeOfArithmeticWindow(values: seq<real>, points: int, a: real, b: real)
    requires 2 <= points <= |values|
    requires forall i :: 0 <= i < points ==> Window(values, points)[i] == a + b * i as real
    ensures SlopeLast(values, points) == Some(b)
  {
    var p := (points - 1) as real;
    var r := SlopeLast(values, points).value;
    var w := Window(values, points);
    assert w[0] == a;
    assert w[points - 1] == a + b * p;
    assert r * p == b * p;
    assert (r - b) * p == 0.0;
    if r > b { MulPositive(r - b, p); }
    if r < b { MulPositive(b - r, p); }
  }
}

=== FILE: utils.dfy ===
/**
 Shared vocabulary of the estimator: a present/absent wrapper for the
 nullable numbers the indicator layer hands over, and the `clamp` helper
 the scorer and the indicator module import.
 */
module Utils {

  /** A value that may be missing (JavaScript `null` or `undefined`). */
  datatype Option<+T> = None | Some(value: T)

  /** True when `x` is present and strictly positive (`null > 0` is false). */
  predicate IsPositive(x: Option<real>) {
    x.Some? && x.value > 0.0
  }

  /** True when `x` is present and strictly negative (`null < 0` is false). */
  predicate IsNegative(x: Option<real>) {
    x.Some? && x.value < 0.0
  }

  /**
   The helper `clamp(x, lo, hi)` of the utility module, assumed to be
   `min(max(x, lo), hi)` for `lo <= hi`.
   */
  function Clamp(x: real, lo: real, hi: real): (r: real)
    requires lo <= hi
    ensures lo <= r <= hi
    ensures lo <= x <= hi ==> r == x
    ensures x <= lo ==> r == lo
    ensures hi <= x ==> r == hi
  {
    if x < lo then lo else if x > hi then hi else x
  }

  /** Comparing a quotient with `c` is comparing the dividend with `c * t`. */
  lemma DivCompare(a: real, t: real, c: real)
    requires t > 0.0
    ensures a / t * t == a
    ensures a / t == c <==> a == c * t
    ensures a / t > c <==> a > c * t
    ensures a / t < c <==> a < c * t
  {
  }

  /** Negating the dividend negates the quotient. */
  lemma NegateQuotient(a: real, t: real)
    requires t != 0.0
    ensures (-a) / t == -(a / t)
  {
  }

  lemma MulNonnegative(x: real, y: real)
    requires x >= 0.0 && y >= 0.0
    ensures x * y >= 0.0
  {
  }

  lemma MulPositive(x: real, y: real)
    requires x > 0.0 && y > 0.0
    ensures x * y > 0.0
  {
  }
}
